=== FILE: README.md ===
# Flux2 C-ABI adapter — a Dafny model

This project models the C-ABI adapter `text_to_image_wrapper.cpp` that sits in front of
the `flux.h` image runtime. It covers the two parts of that file:

- **The merge.** `flux2_to_flux_params` translates the stable caller record `flux2_params`
  onto the runtime's own `flux_params`. It starts from `FLUX_PARAMS_DEFAULT`. It takes the
  caller's width, height and step count only when they are positive. It always takes the
  caller's seed.
- **The four exported entry points.** These are `flux2_load_model`, `flux2_free_model`,
  `flux2_generate_to_file` and `flux2_generate_to_file_with_model`.

Each entry point is a pure function. Its inputs are the C arguments and the runtime's
answers. It returns what the C function returns, together with the ordered trace of
runtime calls it made. The runtime's answers are:

- its defaults;
- the handle `flux_load_dir` returns;
- the image `flux_generate` returns;
- the status `flux_image_save_with_seed` returns.

Modules:

- `CTypes` (`ctypes.dfy`): nullable pointers as `Option`, C `int` and `int64_t` as
  bounded newtypes, and C strings as character sequences without NUL. A NULL string and
  an empty string are both "null or empty".
- `FluxRuntime` (`flux_runtime.dfy`): the runtime as the adapter sees it. It holds the
  opaque handles `Ctx` and `Image` and the record `FluxParams`, whose untouched fields
  are an opaque `OtherFields`. It also holds the call events, where each event records the
  runtime's answer, and the call-pattern and counting functions.
- `Params` (`params.dfy`): `flux2_params` and the merge.
- `Wrapper` (`wrapper.dfy`): the four entry points and the status codes 0, -1, -2 and -3.
- `Resources` (`resources.dfy`): an independent replay of a trace that tracks which models
  and images are held. Using something not held, freeing it twice, or being handed
  something already held makes the replay fail.
- `Protocol` (`protocol.dfy`): call order, exactly-once counts, seed agreement,
  ownership balance and two worked scenarios.
- `Lifecycle` (`lifecycle.dfy`): one handle's life. It is loaded, used for any number of
  generations, then freed.

Three facts about the code shape the model:

- The two flags `use_mmap` and `release_text_encoder` are C `int`s read by truthiness
  (`text_to_image_wrapper.cpp:12-13,43,70,81`), not booleans.
- `flux2_generate_to_file_with_model` checks only the directory before loading
  (`text_to_image_wrapper.cpp:94-101`). An empty prompt or output path is refused by the
  inner call after the model has been loaded, and the model is then freed, so that path
  does make runtime calls. This is `Protocol.EmptyOutputPathScenario`.
- The text encoder is released only after an image was generated
  (`text_to_image_wrapper.cpp:74-83`). When generation fails the function returns -2
  before reaching that step.

## Model

| member | source | states |
|---|---|---|
| Params.ToFluxParams | flux2_ui/lib/cpp_wrappers/text_to_image_wrapper.cpp:16-32 | with no caller record the result is the runtime defaults; otherwise each of width, height and step count is the caller's value when positive and the default when not, the seed is always the caller's (zero and negatives included), and no other field of the defaults changes |
| Params.MergeRoundTrip | flux2_ui/lib/cpp_wrappers/text_to_image_wrapper.cpp:16-32 | a runtime record with positive sizes, requested through the stable record, comes back exactly, whatever the defaults' sizes and seed |
| Params.MergeIdempotent | flux2_ui/lib/cpp_wrappers/text_to_image_wrapper.cpp:16-32 | merging the same caller record onto an already merged record changes nothing |
| Params.MergeNoOverride | flux2_ui/lib/cpp_wrappers/text_to_image_wrapper.cpp:21-30 | a record with only non-positive sizes and the default seed leaves the defaults untouched: a non-positive size is never copied |
| Params.MergeSeedIgnoresDefaults | flux2_ui/lib/cpp_wrappers/text_to_image_wrapper.cpp:21-30 | the merged seed, and every size the caller set positive, do not depend on the defaults |
| Wrapper.LoadModel | flux2_ui/lib/cpp_wrappers/text_to_image_wrapper.cpp:34-46 | a NULL or empty directory returns NULL with no call; otherwise the first call loads that directory; a handle is returned iff the directory is valid and the load produced one, and it is that handle; the mmap toggle with the caller's flag is the last call when a handle and a record exist |
| Wrapper.FreeModel | flux2_ui/lib/cpp_wrappers/text_to_image_wrapper.cpp:48-52 | NULL makes no call; a handle makes exactly one free of that handle |
| Wrapper.GenerateToFile | flux2_ui/lib/cpp_wrappers/text_to_image_wrapper.cpp:58-86 | NULL handle, NULL or empty prompt, or NULL or empty path gives -1 and no call; 0 iff the arguments are valid, an image was produced and the save returned 0; -2 iff the arguments are valid and no image was produced; -3 iff an image was produced and the save failed |
| Wrapper.GenerateToFileWithModel | flux2_ui/lib/cpp_wrappers/text_to_image_wrapper.cpp:88-104 | NULL or empty directory gives -1 and no call; a failed load gives -2 with only the load call; after a load that succeeds the status is exactly the inner generation's status, the first call is the load and the last is the free of the loaded handle |
| Protocol.LoadModelCallPattern | flux2_ui/lib/cpp_wrappers/text_to_image_wrapper.cpp:34-46 | a refused directory makes no call; otherwise one load, followed by one mmap toggle exactly when the load produced a handle and a record was supplied |
| Protocol.GenerateToFileCallPattern | flux2_ui/lib/cpp_wrappers/text_to_image_wrapper.cpp:68-85 | on valid arguments the calls are: the optional mmap toggle, one generation, and only when an image was produced one save, one image free, then the text-encoder release when requested |
| Protocol.GenerateToFileCallTargets | flux2_ui/lib/cpp_wrappers/text_to_image_wrapper.cpp:69-82 | on valid arguments the mmap toggle occurs only with a caller record, comes first and carries that record's flag read by truthiness; the toggle, the generation and the text-encoder release all act on the caller's handle, and the generation is given the caller's prompt |
| Protocol.GenerateToFileCallCounts | flux2_ui/lib/cpp_wrappers/text_to_image_wrapper.cpp:64-85 | one generation iff the arguments are valid; save and image free each exactly once iff an image was produced, whatever the save result; the release exactly once iff, in addition, a record asks for it; never a load or a model free |
| Protocol.WithModelCallPattern | flux2_ui/lib/cpp_wrappers/text_to_image_wrapper.cpp:94-103 | after a successful load the calls are the load, then an mmap toggle only when a caller record is supplied, then the call kinds of the inner generation, then one model free |
| Protocol.WithModelCallTargets | flux2_ui/lib/cpp_wrappers/text_to_image_wrapper.cpp:97-102 | after a successful load, both mmap toggles (the one at load and the one the inner call re-applies) occur only with a caller record and carry that record's flag read by truthiness; the toggles, the generation, the release and the free all act on the loaded handle |
| Protocol.WithModelFreesOnce | flux2_ui/lib/cpp_wrappers/text_to_image_wrapper.cpp:94-103 | the model is freed exactly once when the directory is valid and the load succeeded, and never otherwise; the load is called once iff the directory is valid |
| Protocol.WithModelChecksPromptAfterLoad | flux2_ui/lib/cpp_wrappers/text_to_image_wrapper.cpp:94-103 | an empty prompt with a loadable directory still loads, toggles mmap when a caller record is supplied, frees the model, and returns -1 |
| Protocol.GenerateToFileSavesGenerationSeed | flux2_ui/lib/cpp_wrappers/text_to_image_wrapper.cpp:68-78 | the generation receives the merged parameters and the caller's prompt; any save comes after it, saves the image it produced, to the caller's path, with exactly the seed the generation was given |
| Protocol.WithModelSavesGenerationSeed | flux2_ui/lib/cpp_wrappers/text_to_image_wrapper.cpp:97-101 | in the load-generate-free entry point too, the generation gets the merged parameters and the caller's prompt, and any save follows it, saves the image it produced, to the caller's path, with the merged seed: the prompt and path reach the inner call unchanged |
| Protocol.RedFoxScenario | flux2_ui/lib/cpp_wrappers/text_to_image_wrapper.cpp:88-104 | sizes of -1, seed 42 and mmap on give status 0 and the exact trace: load, mmap on twice, generation with the default sizes and seed 42, save with seed 42, image free, model free |
| Protocol.EmptyOutputPathScenario | flux2_ui/lib/cpp_wrappers/text_to_image_wrapper.cpp:64-66 | an empty output path gives -1 with no call from the generate entry point, but load, mmap toggle and free from the load-generate-free entry point |
| Protocol.LoadModelTransfersOwnership | flux2_ui/lib/cpp_wrappers/text_to_image_wrapper.cpp:34-46 | replaying the load's calls adds exactly the returned handle to what is held, and nothing otherwise |
| Protocol.FreeModelReleases | flux2_ui/lib/cpp_wrappers/text_to_image_wrapper.cpp:48-52 | replaying the free of a held handle releases exactly that handle; NULL releases nothing |
| Protocol.GenerateToFileBalanced | flux2_ui/lib/cpp_wrappers/text_to_image_wrapper.cpp:73-83 | on a held model, what is held after the call equals what was held before, on every path: the image is freed once on the success and the save-failure paths, and no resource is used after release |
| Protocol.WithModelBalanced | flux2_ui/lib/cpp_wrappers/text_to_image_wrapper.cpp:97-103 | on every path the load-generate-free entry point leaves exactly what was held before, so the model and the image it acquired are each released exactly once |
| Lifecycle.GenerateEach | flux2_ui/lib/cpp_wrappers/text_to_image_wrapper.cpp:58-86 | repeated generation on one handle returns one status per request, each the status that request alone would give; its calls are, in order, exactly the calls each request alone would make with its own caller record; it makes no call on a NULL handle |
| Lifecycle.GenerateEachBalanced | flux2_ui/lib/cpp_wrappers/text_to_image_wrapper.cpp:73-83 | any number of generations on a held model leave what is held unchanged |
| Lifecycle.GenerateToFileSaveFollowsGenerate | flux2_ui/lib/cpp_wrappers/text_to_image_wrapper.cpp:73-78 | a generation that produced no image is the last call; one that produced an image is immediately followed by the save of that image with its seed |
| Lifecycle.GenerateEachSavesGenerationSeeds | flux2_ui/lib/cpp_wrappers/text_to_image_wrapper.cpp:73-78 | across many generations on one handle, every generation that produced an image, the last one included, is immediately followed by the save of that same image with the same seed, and every failed one is not followed by a save |
| Lifecycle.ModelLifecycleBalanced | flux2_ui/lib/cpp_wrappers/text_to_image_wrapper.cpp:34-52 | load, any number of generations and free together leave exactly what was held before: the handle and every image are released exactly once |

## Left out

- `flux2_last_error` (`text_to_image_wrapper.cpp:54-56`): it only forwards the runtime's process-wide error string and has no logic of its own.
- The `flux.h` runtime itself is not part of this model. Loading, mmap semantics, generation, image encoding and file writing are foreign code. Only their answers are modelled, as inputs, and their calls, as trace events.
- `FLUX_PARAMS_DEFAULT` is a parameter of every call (`Runtime.defaults`), so every property holds for any defaults. The fields of `flux_params` other than width, height, step count and seed are the opaque `OtherFields`.
- `flux_generate` receives a pointer to the merged record (line 73), and the seed saved at line 78 is read from that record after the call. The model takes `flux_generate` to leave the record it is handed unchanged, since `flux.h` is not part of this model. `Protocol.GenerateToFileSavesGenerationSeed`, `Protocol.WithModelSavesGenerationSeed`, `Lifecycle.GenerateToFileSaveFollowsGenerate` and `Lifecycle.GenerateEachSavesGenerationSeeds` rely on this: a runtime that rewrote the seed in place would break them.
- The field types of `flux_params` are taken to be C `int` for the sizes and `int64_t` for the seed. This matches the values the wrapper copies into them, but `flux.h` is not part of this model.
- The `EXPORT` visibility macro (line 5), pointer representation, and memory ownership beyond which handles and images are held.
- Thread safety of concurrent calls on one handle. The adapter does not guarantee it, and the model is sequential.

=== FILE: ctypes.dfy ===
/** The C-level value types the adapter's exported surface is built from. */
module CTypes {

  /** A nullable pointer: `None` is NULL. */
  datatype Option<+T> = None | Some(value: T)

  /** C `int`, 32 bits wide on every platform the library is built for. */
  newtype int32 = x: int | -0x8000_0000 <= x < 0x8000_0000

  /** C `int64_t`. */
  newtype int64 = x: int | -0x8000_0000_0000_0000 <= x < 0x8000_0000_0000_0000

  /** The characters of a NUL-terminated C string, terminator excluded. */
  type CStr = s: string | '\0' !in s

  /** A `const char *` that is NULL or points at the empty string. */
  predicate NullOrEmpty(s: Option<CStr>) {
    s.None? || |s.value| == 0
  }

  /** C truthiness of an `int` flag. */
  predicate Truthy(flag: int32) {
    flag != 0
  }
}

=== FILE: flux_runtime.dfy ===
/**
  The image runtime behind the adapter, seen only from the outside: its
  handles, its parameter record, the calls the adapter makes on it and the
  answers it gives. Nothing of what the runtime does internally is modelled.
*/
module FluxRuntime {
  import opened CTypes

  /** An opaque `flux_ctx *` (a loaded model). */
  datatype Ctx = Ctx(id: nat)

  /** An opaque `flux_image *` (a generated image owned by whoever received it). */
  datatype Image = Image(id: nat)

  /** The fields of the runtime's parameter record that the adapter never touches. */
  type OtherFields(==)

  /** The runtime's native parameter record `flux_params`. */
  datatype FluxParams = FluxParams(
    width: int32,
    height: int32,
    numSteps: int32,
    seed: int64,
    other: OtherFields)

  /**
    One call into the runtime, together with the answer the runtime gave:
    the handle `flux_load_dir` returned, the image `flux_generate` returned,
    the status `flux_image_save_with_seed` returned.
  */
  datatype Event =
    | LoadDir(dir: CStr, loaded: Option<Ctx>)
    | SetMmap(ctx: Ctx, enabled: bool)
    | Generate(ctx: Ctx, prompt: CStr, params: FluxParams, produced: Option<Image>)
    | SaveWithSeed(image: Image, path: CStr, seed: int64, status: int32)
    | FreeImage(image: Image)
    | ReleaseTextEncoder(ctx: Ctx)
    | FreeCtx(ctx: Ctx)

  /**
    The runtime's side of one adapter call: its compiled-in defaults
    (`FLUX_PARAMS_DEFAULT`) and the answers it gives to load, generate and
    save, should the adapter ask.
  */
  datatype Runtime = Runtime(
    defaults: FluxParams,
    loaded: Option<Ctx>,
    produced: Option<Image>,
    saveStatus: int32)

  /** Which runtime entry point an event is a call of. */
  datatype Kind =
    | LoadCall | MmapCall | GenerateCall | SaveCall | FreeImageCall | ReleaseCall | FreeCtxCall

  function KindOf(e: Event): Kind {
    match e
    case LoadDir(_, _) => LoadCall
    case SetMmap(_, _) => MmapCall
    case Generate(_, _, _, _) => GenerateCall
    case SaveWithSeed(_, _, _, _) => SaveCall
    case FreeImage(_) => FreeImageCall
    case ReleaseTextEncoder(_) => ReleaseCall
    case FreeCtx(_) => FreeCtxCall
  }

  /** The call pattern of a trace: which entry points were called, in order. */
  function Kinds(t: seq<Event>): (ks: seq<Kind>)
    ensures |ks| == |t|
    ensures forall i :: 0 <= i < |t| ==> ks[i] == KindOf(t[i])
  {
    if t == [] then [] else [KindOf(t[0])] + Kinds(t[1..])
  }

  /** How many times `k` occurs in a call pattern. */
  function Occurrences(ks: seq<Kind>, k: Kind): nat {
    if ks == [] then 0 else (if ks[0] == k then 1 else 0) + Occurrences(ks[1..], k)
  }

  /** How many times entry point `k` is called in `t`. */
  function Count(t: seq<Event>, k: Kind): nat {
    Occurrences(Kinds(t), k)
  }

  lemma KindsAppend(a: seq<Event>, b: seq<Event>)
    ensures Kinds(a + b) == Kinds(a) + Kinds(b)
  {
  }

  lemma {:induction false} OccurrencesAppend(a: seq<Kind>, b: seq<Kind>, k: Kind)
    ensures Occurrences(a + b, k) == Occurrences(a, k) + Occurrences(b, k)
  {
    if a == [] {
      assert a + b == b;
    } else {
      assert (a + b)[1..] == a[1..] + b;
      OccurrencesAppend(a[1..], b, k);
    }
  }

  lemma OccurrencesSingle(x: Kind, k: Kind)
    ensures Occurrences([x], k) == if x == k then 1 else 0
  {
  }

  lemma CountAppend(a: seq<Event>, b: seq<Event>, k: Kind)
    ensures Count(a + b, k) == Count(a, k) + Count(b, k)
  {
    KindsAppend(a, b);
    OccurrencesAppend(Kinds(a), Kinds(b), k);
  }
}

=== FILE: lifecycle.dfy ===
/**
  The life of one model handle as a caller drives it through the exported
  surface: `flux2_load_model`, any number of `flux2_generate_to_file` calls
  on the handle (each with its own parameters and its own runtime answers),
  then `flux2_free_model`.
*/
module Lifecycle {
  import opened CTypes
  import opened FluxRuntime
  import opened Params
  import opened Resources
  import opened Wrapper
  import opened Protocol

  /** One `flux2_generate_to_file` request and the runtime's answers to it. */
  datatype Job = Job(prompt: Option<CStr>, path: Option<CStr>, params: Option<Flux2Params>, rt: Runtime)

  /** The traces of several calls, one after another. */
  function Concat(ts: seq<seq<Event>>): seq<Event> {
    if ts == [] then [] else ts[0] + Concat(ts[1..])
  }

  /** What each job, run on its own on `ctx`, would call. */
  function Traces(ctx: Option<Ctx>, jobs: seq<Job>): (ts: seq<seq<Event>>)
    ensures |ts| == |jobs|
  {
    seq(|jobs|, i requires 0 <= i < |jobs| =>
      GenerateToFile(ctx, jobs[i].prompt, jobs[i].path, jobs[i].params, jobs[i].rt).trace)
  }

  /**
    Runs every job on `ctx` in order: each job gets the status and makes the
    calls it would make on its own, with its own caller record.
  */
  function GenerateEach(ctx: Option<Ctx>, jobs: seq<Job>): (r: Call<seq<int32>>)
    ensures |r.value| == |jobs|
    ensures forall i :: 0 <= i < |jobs| ==>
      r.value[i] == GenerateToFile(ctx, jobs[i].prompt, jobs[i].path, jobs[i].params, jobs[i].rt).value
    ensures r.trace == Concat(Traces(ctx, jobs))
    ensures ctx.None? ==> r.trace == []
  {
    if jobs == [] then Call([], [])
    else
      var j := jobs[0];
      var first := GenerateToFile(ctx, j.prompt, j.path, j.params, j.rt);
      var rest := GenerateEach(ctx, jobs[1..]);
      assert Traces(ctx, jobs)[1..] == Traces(ctx, jobs[1..]);
      Call([first.value] + rest.value, first.trace + rest.trace)
  }

  /** No job is answered with an image the caller already holds. */
  predicate FreshImages(jobs: seq<Job>, s: Live) {
    forall i :: 0 <= i < |jobs| && jobs[i].rt.produced.Some? ==> jobs[i].rt.produced.value !in s.images
  }

  /** Any number of generations on a held model leave what is held unchanged. */
  lemma {:induction false} GenerateEachBalanced(ctx: Option<Ctx>, jobs: seq<Job>, s: Live)
    requires ctx.Some? ==> ctx.value in s.ctxs
    requires FreshImages(jobs, s)
    ensures Replay(s, GenerateEach(ctx, jobs).trace) == Some(s)
    decreases |jobs|
  {
    if jobs != [] {
      var j := jobs[0];
      var first := GenerateToFile(ctx, j.prompt, j.path, j.params, j.rt);
      GenerateToFileBalanced(ctx, j.prompt, j.path, j.params, j.rt, s);
      GenerateEachBalanced(ctx, jobs[1..], s);
      ReplayAppend(s, first.trace, GenerateEach(ctx, jobs[1..]).trace);
    }
  }

  /**
    A generation at position `i` of `t` that produced an image is
    immediately followed by the save of that image with the seed it
    generated with; one
    that produced none is not followed by a save.
  */
  predicate SavedAfter(t: seq<Event>, i: int)
    requires 0 <= i < |t| && t[i].Generate?
  {
    if t[i].produced.Some? then
      && i + 1 < |t|
      && t[i + 1].SaveWithSeed?
      && Some(t[i + 1].image) == t[i].produced
      && t[i + 1].seed == t[i].params.seed
    else
      i + 1 < |t| ==> !t[i + 1].SaveWithSeed?
  }

  /** Every generation on the handle saves exactly when it produced an image, with the seed it generated with. */
  lemma {:induction false} GenerateEachSavesGenerationSeeds(ctx: Option<Ctx>, jobs: seq<Job>)
    ensures var t := GenerateEach(ctx, jobs).trace;
      forall i :: 0 <= i < |t| && t[i].Generate? ==> SavedAfter(t, i)
    decreases |jobs|
  {
    if jobs != [] {
      var j := jobs[0];
      var first := GenerateToFile(ctx, j.prompt, j.path, j.params, j.rt).trace;
      var rest := GenerateEach(ctx, jobs[1..]).trace;
      var t := first + rest;
      GenerateEachSavesGenerationSeeds(ctx, jobs[1..]);
      GenerateToFileSaveFollowsGenerate(ctx, j.prompt, j.path, j.params, j.rt);
      GenerateEachStartsWithoutSave(ctx, jobs[1..]);
      forall i | 0 <= i < |t| && t[i].Generate?
        ensures SavedAfter(t, i)
      {
        if i >= |first| {
          assert t[i] == rest[i - |first|];
          assert SavedAfter(rest, i - |first|);
          if i + 1 < |t| {
            assert t[i + 1] == rest[i + 1 - |first|];
          }
        } else {
          assert t[i] == first[i];
          if i + 1 < |first| {
            assert t[i + 1] == first[i + 1];
          } else if i + 1 < |t| {
            assert t[i + 1] == rest[0];
          }
        }
      }
    }
  }

  /**
    Inside one `flux2_generate_to_file` trace a generation is followed by
    the save of its image with its seed when it produced one, and is the last call
    when it did not.
  */
  lemma GenerateToFileSaveFollowsGenerate(
    ctx: Option<Ctx>, prompt: Option<CStr>, path: Option<CStr>,
    params: Option<Flux2Params>, rt: Runtime)
    ensures var t := GenerateToFile(ctx, prompt, path, params, rt).trace;
      forall i :: 0 <= i < |t| && t[i].Generate? ==>
        if t[i].produced.None? then i == |t| - 1
        else
          && i + 1 < |t|
          && t[i + 1].SaveWithSeed?
          && Some(t[i + 1].image) == t[i].produced
          && t[i + 1].seed == t[i].params.seed
  {
  }

  /** A run of generations never starts with a save. */
  lemma GenerateEachStartsWithoutSave(ctx: Option<Ctx>, jobs: seq<Job>)
    ensures var t := GenerateEach(ctx, jobs).trace;
      |t| > 0 ==> !t[0].SaveWithSeed?
  {
  }

  /**
    The whole life of a handle: when the load yields a handle the caller did
    not hold, loading it, running the jobs and freeing it leaves exactly what
    was held before, so the handle and every image are released exactly once.
  */
  lemma ModelLifecycleBalanced(
    dir: Option<CStr>, params: Option<Flux2Params>, rt: Runtime, jobs: seq<Job>, s: Live)
    requires rt.loaded.Some? ==> rt.loaded.value !in s.ctxs
    requires FreshImages(jobs, s)
    ensures var load := LoadModel(dir, params, rt);
      Replay(s, load.trace + GenerateEach(load.value, jobs).trace + FreeModel(load.value)) == Some(s)
  {
    var load := LoadModel(dir, params, rt);
    var s1 := s.(ctxs := s.ctxs + Held(load.value));
    LoadModelTransfersOwnership(dir, params, rt, s);
    if load.value.Some? {
      var c := load.value.value;
      assert FreshImages(jobs, s1);
      GenerateEachBalanced(load.value, jobs, s1);
      FreeModelReleases(load.value, s1);
      assert s1.(ctxs := s1.ctxs - {c}) == s;
    } else {
      assert s1 == s;
      assert GenerateEach(load.value, jobs).trace + FreeModel(load.value) == [];
    }
    ReplayAppend(s, load.trace, GenerateEach(load.value, jobs).trace);
    ReplayAppend(s, load.trace + GenerateEach(load.value, jobs).trace, FreeModel(load.value));
  }
}

=== FILE: params.dfy ===
/**
  The adapter's stable parameter record `flux2_params` and its translation
  onto the runtime's own record.
*/
module Params {
  import opened CTypes
  import opened FluxRuntime

  /**
    `flux2_params`: the caller-facing, ABI-stable record. The size fields
    are override hints (non-positive means "keep the runtime default"), the
    seed has no sentinel, and the two flags are C ints read by truthiness.
  */
  datatype Flux2Params = Flux2Params(
    width: int32,
    height: int32,
    numSteps: int32,
    seed: int64,
    useMmap: int32,
    releaseTextEncoder: int32)

  /** A size field after the merge: the caller's value if it is a real override, else the default. */
  predicate SizeMerged(requested: int32, default: int32, merged: int32) {
    if requested > 0 then merged == requested else merged == default
  }

  /**
    `flux2_to_flux_params`: start from the runtime defaults and, when the
    caller supplied a record, take its positive sizes and its seed.
  */
  function ToFluxParams(params: Option<Flux2Params>, defaults: FluxParams): (out: FluxParams)
    ensures params.None? ==> out == defaults
    ensures params.Some? ==> SizeMerged(params.value.width, defaults.width, out.width)
    ensures params.Some? ==> SizeMerged(params.value.height, defaults.height, out.height)
    ensures params.Some? ==> SizeMerged(params.value.numSteps, defaults.numSteps, out.numSteps)
    ensures params.Some? ==> out.seed == params.value.seed
    ensures out.other == defaults.other
  {
    match params
    case None => defaults
    case Some(p) =>
      var w := if p.width > 0 then p.width else defaults.width;
      var h := if p.height > 0 then p.height else defaults.height;
      var n := if p.numSteps > 0 then p.numSteps else defaults.numSteps;
      defaults.(width := w, height := h, numSteps := n, seed := p.seed)
  }

  /** The stable record that asks for exactly the sizes and seed of `f`. */
  function FromFluxParams(f: FluxParams, useMmap: int32, releaseTextEncoder: int32): Flux2Params {
    Flux2Params(f.width, f.height, f.numSteps, f.seed, useMmap, releaseTextEncoder)
  }

  /**
    Round trip: a runtime record with positive sizes is reproduced exactly
    by asking for it through the stable record, whatever the defaults
    (apart from the fields the stable record cannot reach).
  */
  lemma MergeRoundTrip(f: FluxParams, defaults: FluxParams, useMmap: int32, releaseTextEncoder: int32)
    requires f.width > 0 && f.height > 0 && f.numSteps > 0
    requires f.other == defaults.other
    ensures ToFluxParams(Some(FromFluxParams(f, useMmap, releaseTextEncoder)), defaults) == f
  {
  }

  /** Merging the same caller record twice changes nothing the second time. */
  lemma MergeIdempotent(p: Option<Flux2Params>, defaults: FluxParams)
    ensures ToFluxParams(p, ToFluxParams(p, defaults)) == ToFluxParams(p, defaults)
  {
  }

  /**
    A caller record that overrides nothing and repeats the default seed
    yields the defaults unchanged; in particular a zero or negative size is
    never copied into the runtime record.
  */
  lemma MergeNoOverride(p: Flux2Params, defaults: FluxParams)
    requires p.width <= 0 && p.height <= 0 && p.numSteps <= 0
    requires p.seed == defaults.seed
    ensures ToFluxParams(Some(p), defaults) == defaults
  {
  }

  /**
    Two runtimes' defaults can show through the merge only where the caller
    gave no positive size: the seed never depends on the defaults.
  */
  lemma MergeSeedIgnoresDefaults(p: Flux2Params, d1: FluxParams, d2: FluxParams)
    ensures ToFluxParams(Some(p), d1).seed == ToFluxParams(Some(p), d2).seed
    ensures p.width > 0 ==> ToFluxParams(Some(p), d1).width == ToFluxParams(Some(p), d2).width
    ensures p.height > 0 ==> ToFluxParams(Some(p), d1).height == ToFluxParams(Some(p), d2).height
    ensures p.numSteps > 0 ==> ToFluxParams(Some(p), d1).numSteps == ToFluxParams(Some(p), d2).numSteps
  {
  }
}

=== FILE: protocol.dfy ===
/**
  What the entry points promise about their runtime calls: the order of
  the calls, that every resource acquired is released exactly once on every
  path, that refused arguments make no call at all, and that the file is
  saved with the seed the image was generated with.
*/
module Protocol {
  import opened CTypes
  import opened FluxRuntime
  import opened Params
  import opened Resources
  import opened Wrapper

  /** The call pattern of the optional mmap toggle. */
  function MmapKinds(params: Option<Flux2Params>): seq<Kind> {
    if params.Some? then [MmapCall] else []
  }

  /** The call pattern of the optional text-encoder release. */
  function ReleaseKinds(params: Option<Flux2Params>): seq<Kind> {
    if WantsEncoderRelease(params) then [ReleaseCall] else []
  }

  // ---------------------------------------------------------------- call order

  /** The call pattern of a valid `flux2_generate_to_file` call. */
  function GeneratePattern(params: Option<Flux2Params>, produced: bool): seq<Kind> {
    MmapKinds(params) + [GenerateCall] +
    (if produced then [SaveCall, FreeImageCall] + ReleaseKinds(params) else [])
  }

  /**
    `flux2_load_model`: a refused directory makes no call; otherwise one
    load, followed by one mmap toggle exactly when the load produced a
    handle and the caller supplied a record.
  */
  lemma LoadModelCallPattern(dir: Option<CStr>, params: Option<Flux2Params>, rt: Runtime)
    ensures Kinds(LoadModel(dir, params, rt).trace) ==
      if NullOrEmpty(dir) then []
      else [LoadCall] + (if rt.loaded.Some? then MmapKinds(params) else [])
  {
  }

  /**
    `flux2_generate_to_file` on valid arguments: the optional mmap toggle,
    one generation, and only when it produced an image one save, then one
    image free, then the optional text-encoder release.
  */
  lemma GenerateToFileCallPattern(
    ctx: Option<Ctx>, prompt: Option<CStr>, path: Option<CStr>,
    params: Option<Flux2Params>, rt: Runtime)
    requires GenerateArgsValid(ctx, prompt, path)
    ensures Kinds(GenerateToFile(ctx, prompt, path, params, rt).trace) ==
      GeneratePattern(params, rt.produced.Some?)
  {
  }

  /**
    What the calls of `flux2_generate_to_file` carry on valid arguments: the
    mmap toggle, present only with a caller record, comes first and carries
    the caller's flag; the toggle, the generation and the text-encoder
    release all act on the caller's handle; the generation gets the
    caller's prompt.
  */
  lemma GenerateToFileCallTargets(
    ctx: Option<Ctx>, prompt: Option<CStr>, path: Option<CStr>,
    params: Option<Flux2Params>, rt: Runtime)
    requires GenerateArgsValid(ctx, prompt, path)
    ensures var t := GenerateToFile(ctx, prompt, path, params, rt).trace;
      && |t| > 0
      && (params.Some? ==> t[0] == SetMmap(ctx.value, Truthy(params.value.useMmap)))
      && (forall i :: 0 <= i < |t| && t[i].SetMmap? ==>
            params.Some? && t[i] == SetMmap(ctx.value, Truthy(params.value.useMmap)))
      && (forall i :: 0 <= i < |t| && t[i].Generate? ==>
            t[i].ctx == ctx.value && t[i].prompt == prompt.value)
      && (forall i :: 0 <= i < |t| && t[i].ReleaseTextEncoder? ==> t[i].ctx == ctx.value)
  {
  }

  /** Occurrences of `k` in a pattern that holds `x` once when `present`. */
  function OccurrencesIf(present: bool, x: Kind, k: Kind): nat {
    if present && x == k then 1 else 0
  }

  lemma GeneratePatternCounts(params: Option<Flux2Params>, produced: bool)
    ensures var ks := GeneratePattern(params, produced);
      && Occurrences(ks, GenerateCall) == 1
      && Occurrences(ks, SaveCall) == (if produced then 1 else 0)
      && Occurrences(ks, FreeImageCall) == (if produced then 1 else 0)
      && Occurrences(ks, ReleaseCall) == (if produced && WantsEncoderRelease(params) then 1 else 0)
      && Occurrences(ks, LoadCall) == 0
      && Occurrences(ks, FreeCtxCall) == 0
  {
    var head := MmapKinds(params) + [GenerateCall];
    var tail := if produced then [SaveCall, FreeImageCall] + ReleaseKinds(params) else [];
    forall k: Kind
      ensures Occurrences(GeneratePattern(params, produced), k) ==
        OccurrencesIf(params.Some?, MmapCall, k) + OccurrencesIf(true, GenerateCall, k)
        + OccurrencesIf(produced, SaveCall, k) + OccurrencesIf(produced, FreeImageCall, k)
        + OccurrencesIf(produced && WantsEncoderRelease(params), ReleaseCall, k)
    {
      OccurrencesAppend(MmapKinds(params), [GenerateCall], k);
      OccurrencesAppend(head, tail, k);
      OccurrencesSingle(MmapCall, k);
      OccurrencesSingle(GenerateCall, k);
      OccurrencesSingle(ReleaseCall, k);
      if produced {
        assert [SaveCall, FreeImageCall] == [SaveCall] + [FreeImageCall];
        OccurrencesAppend([SaveCall], [FreeImageCall], k);
        OccurrencesSingle(SaveCall, k);
        OccurrencesSingle(FreeImageCall, k);
        OccurrencesAppend([SaveCall, FreeImageCall], ReleaseKinds(params), k);
      }
    }
  }

  /**
    Exactly-once accounting for `flux2_generate_to_file`: on valid arguments
    one generation; one save and one image free exactly when an image was
    produced (whatever the save reported); one text-encoder release exactly
    when, in addition, the caller asked for it; never a load or a model free.
  */
  lemma GenerateToFileCallCounts(
    ctx: Option<Ctx>, prompt: Option<CStr>, path: Option<CStr>,
    params: Option<Flux2Params>, rt: Runtime, t: seq<Event>)
    requires t == GenerateToFile(ctx, prompt, path, params, rt).trace
    ensures var made := GenerateArgsValid(ctx, prompt, path) && rt.produced.Some?;
      && Count(t, GenerateCall) == (if GenerateArgsValid(ctx, prompt, path) then 1 else 0)
      && Count(t, SaveCall) == (if made then 1 else 0)
      && Count(t, FreeImageCall) == (if made then 1 else 0)
      && Count(t, ReleaseCall) == (if made && WantsEncoderRelease(params) then 1 else 0)
      && Count(t, LoadCall) == 0
      && Count(t, FreeCtxCall) == 0
  {
    if GenerateArgsValid(ctx, prompt, path) {
      GenerateToFileCallPattern(ctx, prompt, path, params, rt);
      GeneratePatternCounts(params, rt.produced.Some?);
    }
  }

  /**
    `flux2_generate_to_file_with_model` after a successful load: the load's
    calls, the inner generation's calls, then exactly one model free.
  */
  lemma WithModelCallPattern(
    dir: Option<CStr>, prompt: Option<CStr>, path: Option<CStr>,
    params: Option<Flux2Params>, rt: Runtime)
    requires !NullOrEmpty(dir) && rt.loaded.Some?
    ensures Kinds(GenerateToFileWithModel(dir, prompt, path, params, rt).trace) ==
      [LoadCall] + MmapKinds(params) +
      Kinds(GenerateToFile(rt.loaded, prompt, path, params, rt).trace) + [FreeCtxCall]
  {
    var load := LoadModel(dir, params, rt);
    var inner := GenerateToFile(rt.loaded, prompt, path, params, rt);
    LoadModelCallPattern(dir, params, rt);
    KindsAppend(load.trace, inner.trace);
    KindsAppend(load.trace + inner.trace, [FreeCtx(rt.loaded.value)]);
  }

  /**
    What the calls of `flux2_generate_to_file_with_model` carry after a
    successful load: both mmap toggles, the one at load and the one the
    inner call re-applies, occur only with a caller record and carry that
    record's flag; toggles, generation, release and free all act on the
    loaded handle.
  */
  lemma WithModelCallTargets(
    dir: Option<CStr>, prompt: Option<CStr>, path: Option<CStr>,
    params: Option<Flux2Params>, rt: Runtime)
    requires !NullOrEmpty(dir) && rt.loaded.Some?
    ensures var t := GenerateToFileWithModel(dir, prompt, path, params, rt).trace;
      && (forall i :: 0 <= i < |t| && t[i].SetMmap? ==>
            params.Some? && t[i] == SetMmap(rt.loaded.value, Truthy(params.value.useMmap)))
      && (forall i :: 0 <= i < |t| && t[i].Generate? ==> t[i].ctx == rt.loaded.value)
      && (forall i :: 0 <= i < |t| && t[i].ReleaseTextEncoder? ==> t[i].ctx == rt.loaded.value)
      && (forall i :: 0 <= i < |t| && t[i].FreeCtx? ==> t[i].ctx == rt.loaded.value)
  {
    var c := rt.loaded.value;
    var t := GenerateToFileWithModel(dir, prompt, path, params, rt).trace;
    var load := LoadModel(dir, params, rt).trace;
    var inner := GenerateToFile(rt.loaded, prompt, path, params, rt).trace;
    assert t == load + inner + [FreeCtx(c)];
    assert load == [LoadDir(dir.value, rt.loaded)] + ApplyMmap(c, params);
    if GenerateArgsValid(rt.loaded, prompt, path) {
      GenerateToFileCallTargets(rt.loaded, prompt, path, params, rt);
    }
    forall i | 0 <= i < |t|
      ensures t[i] == (if i < |load| then load[i]
                       else if i < |load| + |inner| then inner[i - |load|]
                       else FreeCtx(c))
    {
    }
  }

  /**
    `flux2_generate_to_file_with_model` frees the model exactly once when it
    loaded one and never otherwise, whatever the inner generation returned.
  */
  lemma WithModelFreesOnce(
    dir: Option<CStr>, prompt: Option<CStr>, path: Option<CStr>,
    params: Option<Flux2Params>, rt: Runtime)
    ensures Count(GenerateToFileWithModel(dir, prompt, path, params, rt).trace, FreeCtxCall) ==
      (if !NullOrEmpty(dir) && rt.loaded.Some? then 1 else 0)
    ensures Count(GenerateToFileWithModel(dir, prompt, path, params, rt).trace, LoadCall) ==
      (if NullOrEmpty(dir) then 0 else 1)
  {
    if !NullOrEmpty(dir) && rt.loaded.Some? {
      var c := rt.loaded.value;
      var load := LoadModel(dir, params, rt).trace;
      var inner := GenerateToFile(rt.loaded, prompt, path, params, rt).trace;
      assert GenerateToFileWithModel(dir, prompt, path, params, rt).trace == load + inner + [FreeCtx(c)];
      LoadModelCallPattern(dir, params, rt);
      GenerateToFileCallCounts(rt.loaded, prompt, path, params, rt, inner);
      assert Kinds([FreeCtx(c)]) == [FreeCtxCall];
      forall k: Kind
        ensures Count(load + inner + [FreeCtx(c)], k) ==
          OccurrencesIf(true, LoadCall, k) + Occurrences(MmapKinds(params), k)
          + Count(inner, k) + OccurrencesIf(true, FreeCtxCall, k)
      {
        CountAppend(load, inner, k);
        CountAppend(load + inner, [FreeCtx(c)], k);
        OccurrencesAppend([LoadCall], MmapKinds(params), k);
        OccurrencesSingle(LoadCall, k);
        OccurrencesSingle(FreeCtxCall, k);
      }
      OccurrencesSingle(MmapCall, FreeCtxCall);
      OccurrencesSingle(MmapCall, LoadCall);
      assert Occurrences(MmapKinds(params), FreeCtxCall) == 0;
      assert Occurrences(MmapKinds(params), LoadCall) == 0;
    } else if !NullOrEmpty(dir) {
      OccurrencesSingle(LoadCall, LoadCall);
      OccurrencesSingle(LoadCall, FreeCtxCall);
    }
  }

  /**
    The prompt and output path are only checked after the model is loaded,
    so an empty prompt with a loadable directory still loads and frees the
    model, and returns the invalid-argument status.
  */
  lemma WithModelChecksPromptAfterLoad(
    dir: Option<CStr>, path: Option<CStr>, params: Option<Flux2Params>, rt: Runtime)
    requires !NullOrEmpty(dir) && rt.loaded.Some?
    ensures GenerateToFileWithModel(dir, Some(""), path, params, rt) ==
      Call(InvalidArgument,
           [LoadDir(dir.value, rt.loaded)] + ApplyMmap(rt.loaded.value, params) + [FreeCtx(rt.loaded.value)])
  {
  }

  // ---------------------------------------------------------------- seeds

  /**
    The trace of `flux2_generate_to_file` hands the runtime the merged
    parameters, and any save comes after the generation and carries exactly
    the seed the generation was given.
  */
  lemma GenerateToFileSavesGenerationSeed(
    ctx: Option<Ctx>, prompt: Option<CStr>, path: Option<CStr>,
    params: Option<Flux2Params>, rt: Runtime)
    ensures var t := GenerateToFile(ctx, prompt, path, params, rt).trace;
      forall i, j :: 0 <= i < |t| && 0 <= j < |t| && t[i].Generate? && t[j].SaveWithSeed? ==>
        && i < j
        && t[i].params == ToFluxParams(params, rt.defaults)
        && t[j].seed == t[i].params.seed
        && Some(t[i].prompt) == prompt
        && Some(t[j].image) == t[i].produced
        && Some(t[j].path) == path
  {
  }

  /**
    The same holds for `flux2_generate_to_file_with_model`, which hands the
    caller's prompt and output path to the inner call unchanged: loading and
    freeing the model around the generation adds no generation or save.
  */
  lemma WithModelSavesGenerationSeed(
    dir: Option<CStr>, prompt: Option<CStr>, path: Option<CStr>,
    params: Option<Flux2Params>, rt: Runtime)
    ensures var t := GenerateToFileWithModel(dir, prompt, path, params, rt).trace;
      forall i, j :: 0 <= i < |t| && 0 <= j < |t| && t[i].Generate? && t[j].SaveWithSeed? ==>
        && i < j
        && t[i].params == ToFluxParams(params, rt.defaults)
        && t[j].seed == t[i].params.seed
        && Some(t[i].prompt) == prompt
        && Some(t[j].path) == path
        && Some(t[j].image) == t[i].produced
  {
    if !NullOrEmpty(dir) && rt.loaded.Some? {
      var t := GenerateToFileWithModel(dir, prompt, path, params, rt).trace;
      var load := LoadModel(dir, params, rt).trace;
      var inner := GenerateToFile(rt.loaded, prompt, path, params, rt).trace;
      assert t == load + inner + [FreeCtx(rt.loaded.value)];
      GenerateToFileSavesGenerationSeed(rt.loaded, prompt, path, params, rt);
      forall i | 0 <= i < |t| && !(|load| <= i < |load| + |inner|)
        ensures !t[i].Generate? && !t[i].SaveWithSeed?
      {
        if i < |load| {
          assert t[i] == load[i];
        } else {
          assert t[i] == FreeCtx(rt.loaded.value);
        }
      }
      forall i | |load| <= i < |load| + |inner|
        ensures t[i] == inner[i - |load|]
      {
      }
    }
  }

  // ---------------------------------------------------------------- scenarios

  /**
    A caller record with sizes of -1 and seed 42, mmap on: the runtime's
    default sizes are kept, the seed 42 is used for generation and for the
    save, mmap is switched on at load and again before generating, and the
    model is freed last.
  */
  lemma RedFoxScenario(defaults: FluxParams, c: Ctx, img: Image)
    ensures var params := Some(Flux2Params(-1, -1, -1, 42, 1, 0));
      var rt := Runtime(defaults, Some(c), Some(img), 0);
      GenerateToFileWithModel(Some("models/v1"), Some("a red fox"), Some("out.png"), params, rt) ==
      Call(Success, [
        LoadDir("models/v1", Some(c)),
        SetMmap(c, true),
        SetMmap(c, true),
        Generate(c, "a red fox", defaults.(seed := 42), Some(img)),
        SaveWithSeed(img, "out.png", 42, 0),
        FreeImage(img),
        FreeCtx(c)])
  {
  }

  /**
    An empty output path is refused by `flux2_generate_to_file` without any
    runtime call; `flux2_generate_to_file_with_model` only notices it after
    loading, so it loads, toggles mmap and frees the model before refusing.
  */
  lemma EmptyOutputPathScenario(defaults: FluxParams, c: Ctx, img: Image)
    ensures var params := Some(Flux2Params(-1, -1, -1, 42, 1, 0));
      var rt := Runtime(defaults, Some(c), Some(img), 0);
      && GenerateToFile(Some(c), Some("a red fox"), Some(""), params, rt) == Call(InvalidArgument, [])
      && GenerateToFileWithModel(Some("models/v1"), Some("a red fox"), Some(""), params, rt) ==
         Call(InvalidArgument, [LoadDir("models/v1", Some(c)), SetMmap(c, true), FreeCtx(c)])
  {
  }

  // ---------------------------------------------------------------- ownership

  /** `flux2_load_model` hands the caller the model it loaded and holds nothing else. */
  lemma LoadModelTransfersOwnership(dir: Option<CStr>, params: Option<Flux2Params>, rt: Runtime, s: Live)
    requires rt.loaded.Some? ==> rt.loaded.value !in s.ctxs
    ensures var r := LoadModel(dir, params, rt);
      Replay(s, r.trace) == Some(s.(ctxs := s.ctxs + Held(r.value)))
  {
    var r := LoadModel(dir, params, rt);
    if !NullOrEmpty(dir) && rt.loaded.Some? {
      var c := rt.loaded.value;
      var load := LoadDir(dir.value, rt.loaded);
      ReplaySingle(s, load);
      ReplayAppend(s, [load], ApplyMmap(c, params));
      if params.Some? {
        ReplaySingle(s.(ctxs := s.ctxs + {c}), SetMmap(c, Truthy(params.value.useMmap)));
      }
    } else {
      assert s.(ctxs := s.ctxs + {}) == s;
      if !NullOrEmpty(dir) {
        ReplaySingle(s, LoadDir(dir.value, None));
      }
    }
  }

  /** `flux2_free_model` releases the handle it is given, and does nothing on NULL. */
  lemma FreeModelReleases(ctx: Option<Ctx>, s: Live)
    requires ctx.Some? ==> ctx.value in s.ctxs
    ensures Replay(s, FreeModel(ctx)) == Some(s.(ctxs := s.ctxs - Held(ctx)))
  {
    if ctx.Some? {
      ReplaySingle(s, FreeCtx(ctx.value));
    } else {
      assert s.ctxs - {} == s.ctxs;
    }
  }

  /**
    `flux2_generate_to_file` on a held model leaves exactly what was held
    before: the image it generates, if any, is freed before it returns, on
    the save-failure path as on the success path.
  */
  lemma GenerateToFileBalanced(
    ctx: Option<Ctx>, prompt: Option<CStr>, path: Option<CStr>,
    params: Option<Flux2Params>, rt: Runtime, s: Live)
    requires ctx.Some? ==> ctx.value in s.ctxs
    requires rt.produced.Some? ==> rt.produced.value !in s.images
    ensures Replay(s, GenerateToFile(ctx, prompt, path, params, rt).trace) == Some(s)
  {
    if GenerateArgsValid(ctx, prompt, path) {
      var c := ctx.value;
      var merged := ToFluxParams(params, rt.defaults);
      var gen := [Generate(c, prompt.value, merged, rt.produced)];
      ReplayAppend(s, ApplyMmap(c, params), gen);
      var generate := ApplyMmap(c, params) + gen;
      if rt.produced.Some? {
        var img := rt.produced.value;
        var s1 := s.(images := s.images + {img});
        assert Replay(s, generate) == Some(s1);
        var save := [SaveWithSeed(img, path.value, merged.seed, rt.saveStatus), FreeImage(img)];
        var release := if WantsEncoderRelease(params) then [ReleaseTextEncoder(c)] else [];
        ReplayAppend(s, generate, save);
        ReplayAppend(s1, save, release);
        assert s1.(images := s1.images - {img}) == s;
        ReplayAppend(s, generate + save, release);
      }
    }
  }

  /**
    `flux2_generate_to_file_with_model` leaves exactly what was held before
    on every path: the model it loads is freed once and the image freed once.
  */
  lemma WithModelBalanced(
    dir: Option<CStr>, prompt: Option<CStr>, path: Option<CStr>,
    params: Option<Flux2Params>, rt: Runtime, s: Live)
    requires rt.loaded.Some? ==> rt.loaded.value !in s.ctxs
    requires rt.produced.Some? ==> rt.produced.value !in s.images
    ensures Replay(s, GenerateToFileWithModel(dir, prompt, path, params, rt).trace) == Some(s)
  {
    if !NullOrEmpty(dir) && rt.loaded.Some? {
      var c := rt.loaded.value;
      var load := LoadModel(dir, params, rt);
      var inner := GenerateToFile(rt.loaded, prompt, path, params, rt);
      var s1 := s.(ctxs := s.ctxs + {c});
      LoadModelTransfersOwnership(dir, params, rt, s);
      GenerateToFileBalanced(rt.loaded, prompt, path, params, rt, s1);
      ReplayAppend(s, load.trace, inner.trace);
      ReplayAppend(s, load.trace + inner.trace, FreeModel(Some(c)));
      FreeModelReleases(Some(c), s1);
      assert s1.(ctxs := s1.ctxs - {c}) == s;
    } else if !NullOrEmpty(dir) {
      ReplaySingle(s, LoadDir(dir.value, None));
    }
  }
}

=== FILE: resources.dfy ===
/**
  Ownership bookkeeping for the runtime's two kinds of resource, read off a
  trace independently of how the trace was produced: a loaded model is held
  from a successful load until its free, an image from a successful
  generation until its free. Using a resource that is not held, freeing it
  twice, or being handed one that is already held makes the replay fail.
*/
module Resources {
  import opened CTypes
  import opened FluxRuntime

  /** The resources currently held. */
  datatype Live = Live(ctxs: set<Ctx>, images: set<Image>)

  /** The resource a nullable pointer holds, if any. */
  function Held<T>(o: Option<T>): set<T> {
    match o
    case None => {}
    case Some(x) => {x}
  }

  /** The effect of one runtime call on what is held; `None` on misuse. */
  function Step(s: Live, e: Event): Option<Live> {
    match e
    case LoadDir(_, loaded) =>
      if loaded.Some? && loaded.value in s.ctxs then None
      else Some(s.(ctxs := s.ctxs + Held(loaded)))
    case SetMmap(c, _) =>
      if c in s.ctxs then Some(s) else None
    case Generate(c, _, _, produced) =>
      if c !in s.ctxs || (produced.Some? && produced.value in s.images) then None
      else Some(s.(images := s.images + Held(produced)))
    case SaveWithSeed(i, _, _, _) =>
      if i in s.images then Some(s) else None
    case FreeImage(i) =>
      if i in s.images then Some(s.(images := s.images - {i})) else None
    case ReleaseTextEncoder(c) =>
      if c in s.ctxs then Some(s) else None
    case FreeCtx(c) =>
      if c in s.ctxs then Some(s.(ctxs := s.ctxs - {c})) else None
  }

  /** Replays a whole trace from `s`; `None` if any call misuses a resource. */
  function Replay(s: Live, t: seq<Event>): Option<Live>
    decreases |t|
  {
    if t == [] then Some(s)
    else
      match Step(s, t[0])
      case None => None
      case Some(s') => Replay(s', t[1..])
  }

  /** Replaying two traces in a row is replaying their concatenation. */
  lemma {:induction false} ReplayAppend(s: Live, a: seq<Event>, b: seq<Event>)
    ensures Replay(s, a + b) ==
      (match Replay(s, a)
       case None => None
       case Some(s') => Replay(s', b))
    decreases |a|
  {
    if a == [] {
      assert a + b == b;
    } else {
      assert (a + b)[0] == a[0];
      assert (a + b)[1..] == a[1..] + b;
      match Step(s, a[0])
      case None =>
      case Some(s') => ReplayAppend(s', a[1..], b);
    }
  }

  /** Replaying a single call is taking that call's step. */
  lemma ReplaySingle(s: Live, e: Event)
    ensures Replay(s, [e]) == Step(s, e)
  {
  }
}

=== FILE: wrapper.dfy ===
/**
  The four exported entry points of the adapter. Each is a pure function of
  its arguments and of the runtime's answers, returning what the C function
  returns together with the ordered trace of runtime calls it made.
*/
module Wrapper {
  import opened CTypes
  import opened FluxRuntime
  import opened Params

  /** What an entry point returns, and the runtime calls it made on the way. */
  datatype Call<+T> = Call(value: T, trace: seq<Event>)

  /** The status codes of the exported surface. */
  const Success: int32 := 0
  const InvalidArgument: int32 := -1
  const RuntimeFailure: int32 := -2
  const SaveFailure: int32 := -3

  /** The mmap toggle applied to `ctx` when the caller supplied a record. */
  function ApplyMmap(ctx: Ctx, params: Option<Flux2Params>): seq<Event> {
    match params
    case None => []
    case Some(p) => [SetMmap(ctx, Truthy(p.useMmap))]
  }

  /** The arguments `flux2_generate_to_file` accepts before touching the runtime. */
  predicate GenerateArgsValid(ctx: Option<Ctx>, prompt: Option<CStr>, path: Option<CStr>) {
    ctx.Some? && !NullOrEmpty(prompt) && !NullOrEmpty(path)
  }

  /** Whether the caller asked for the text encoder to be dropped after generating. */
  predicate WantsEncoderRelease(params: Option<Flux2Params>) {
    params.Some? && Truthy(params.value.releaseTextEncoder)
  }

  /**
    `flux2_load_model`: a NULL or empty directory is refused without a
    runtime call; otherwise the directory is loaded and, when it loads and
    the caller supplied a record, its mmap flag is applied to the new handle.
  */
  function LoadModel(dir: Option<CStr>, params: Option<Flux2Params>, rt: Runtime): (r: Call<Option<Ctx>>)
    ensures NullOrEmpty(dir) ==> r == Call(None, [])
    ensures !NullOrEmpty(dir) ==> |r.trace| >= 1 && r.trace[0] == LoadDir(dir.value, rt.loaded)
    ensures r.value.Some? <==> !NullOrEmpty(dir) && rt.loaded.Some?
    ensures r.value.Some? ==> r.value == rt.loaded
    ensures r.value.Some? && params.Some? ==>
      r.trace[|r.trace| - 1] == SetMmap(r.value.value, Truthy(params.value.useMmap))
    ensures r.value.None? || params.None? ==> |r.trace| <= 1
  {
    if NullOrEmpty(dir) then
      Call(None, [])
    else
      var load := [LoadDir(dir.value, rt.loaded)];
      match rt.loaded
      case None => Call(None, load)
      case Some(ctx) => Call(Some(ctx), load + ApplyMmap(ctx, params))
  }

  /** `flux2_free_model`: frees a non-NULL handle, ignores NULL. */
  function FreeModel(ctx: Option<Ctx>): (t: seq<Event>)
    ensures ctx.None? ==> t == []
    ensures ctx.Some? ==> t == [FreeCtx(ctx.value)]
  {
    match ctx
    case None => []
    case Some(c) => [FreeCtx(c)]
  }

  /**
    `flux2_generate_to_file`: validate, merge the parameters, re-apply the
    mmap flag, generate, save with the generation's seed, free the image,
    optionally release the text encoder, and map the outcome to a status.
  */
  function GenerateToFile(
    ctx: Option<Ctx>, prompt: Option<CStr>, path: Option<CStr>,
    params: Option<Flux2Params>, rt: Runtime): (r: Call<int32>)
    ensures !GenerateArgsValid(ctx, prompt, path) ==> r == Call(InvalidArgument, [])
    ensures r.value == Success <==>
      GenerateArgsValid(ctx, prompt, path) && rt.produced.Some? && rt.saveStatus == 0
    ensures r.value == RuntimeFailure <==> GenerateArgsValid(ctx, prompt, path) && rt.produced.None?
    ensures r.value == SaveFailure <==>
      GenerateArgsValid(ctx, prompt, path) && rt.produced.Some? && rt.saveStatus != 0
    ensures r.value in {Success, InvalidArgument, RuntimeFailure, SaveFailure}
  {
    if !GenerateArgsValid(ctx, prompt, path) then
      Call(InvalidArgument, [])
    else
      var c := ctx.value;
      var merged := ToFluxParams(params, rt.defaults);
      var generate := ApplyMmap(c, params) + [Generate(c, prompt.value, merged, rt.produced)];
      match rt.produced
      case None => Call(RuntimeFailure, generate)
      case Some(img) =>
        var save := [SaveWithSeed(img, path.value, merged.seed, rt.saveStatus), FreeImage(img)];
        var release := if WantsEncoderRelease(params) then [ReleaseTextEncoder(c)] else [];
        Call(if rt.saveStatus == 0 then Success else SaveFailure, generate + save + release)
  }

  /**
    `flux2_generate_to_file_with_model`: load a model for one generation
    and free it again whatever the generation's outcome.
  */
  function GenerateToFileWithModel(
    dir: Option<CStr>, prompt: Option<CStr>, path: Option<CStr>,
    params: Option<Flux2Params>, rt: Runtime): (r: Call<int32>)
    ensures NullOrEmpty(dir) ==> r == Call(InvalidArgument, [])
    ensures !NullOrEmpty(dir) && rt.loaded.None? ==>
      r == Call(RuntimeFailure, [LoadDir(dir.value, None)])
    ensures !NullOrEmpty(dir) && rt.loaded.Some? ==>
      && r.value == GenerateToFile(rt.loaded, prompt, path, params, rt).value
      && |r.trace| >= 2
      && r.trace[0] == LoadDir(dir.value, rt.loaded)
      && r.trace[|r.trace| - 1] == FreeCtx(rt.loaded.value)
  {
    if NullOrEmpty(dir) then
      Call(InvalidArgument, [])
    else
      var load := LoadModel(dir, params, rt);
      match load.value
      case None => Call(RuntimeFailure, load.trace)
      case Some(ctx) =>
        var result := GenerateToFile(Some(ctx), prompt, path, params, rt);
        Call(result.value, load.trace + result.trace + FreeModel(Some(ctx)))
  }
}
